=== FILE: README.md ===
# Application workflow of the HelloWorld 2017 portal, in Dafny

This project models the application workflow of the hackathon portal's
`ApplicationController`. The workflow is a small state machine over the store of
applications, keyed by the owning user. A user has at most one application, through
the `hasOne` relation of `User`. Each endpoint is a pure transition
`(caller, request, store) -> (reply, store')`:

- **create** (`POST /application`) validates the request and refuses a second
  application. On success it stores a new row with both statuses `pending`,
  `last_email_status = "none"` and a fresh uuid. It stores the resume file, if one
  was sent, and records a confirmation email to the caller.
- **update** (`PUT /application`) validates only the keys that were sent. It then
  overwrites each whitelisted attribute whose value is not loosely null.
- **set status** (`POST /application/{id}/status`) is admin only. It overwrites
  `status_internal` with `accepted`, `rejected` or `waitlisted`.
- **self view** (`GET /application/self`) projects the caller's application. It
  exposes `status_public` as `status` and hides `status_internal`,
  `last_email_status` and the uuid.
- **list** and **get one** (`GET /applications`, `GET /application/{id}`) are admin
  only.

Files:

- `common.dfy`: `Option` (PHP null) and the identifier types.
- `validation.dfy`: the Laravel validator rules the controller uses, as Laravel 5.3
  and later apply them (the controller's `Rule::in` needs 5.3). `required` is the only implicit rule. Any other rule is
  skipped when its key is absent or its value is a whitespace-only string (PHP
  `trim`). A present `null` is still checked. `in:` is PHP's non-strict `in_array`,
  so numeric strings match by value.
- `records.dfy`: the `Application` row, its `PublicView`, and the store `Db` with
  its `Valid` invariant. `Valid` says each row's `user_id` is its key and primary
  keys are distinct and below the auto-increment counter.
- `controller.dfy`: the endpoints, the rule tables and the update loop.
- `properties.dfy`: lemmas about the endpoints and how they compose.
- `findings.dfy`: two replies that return more records than asked for (see Findings).

Collaborators the model does not interpret are parameters:

- The caller is a `Principal` (user id and role names).
- `Uuid::generate()` is the `uuid` argument of `CreateApplication`.
- The `Oracle` value gives Laravel's `integer` and `url` checks as uninterpreted
  predicates. It also gives PHP's numeric comparison of two numeric-looking strings.

## Model

| member | source | states |
|---|---|---|
| Validation.Failures | app/Http/Controllers/ApplicationController.php:76-91 | the error keys are exactly the attributes that have a failing rule, and there are none iff every constraint passes |
| Validation.InPlainList | app/Http/Controllers/ApplicationController.php:77-82 | `in:` over a list of non-numeric words is exact membership: loose `in_array` cannot match anything else |
| Records.FieldNamed | app/Http/Controllers/ApplicationController.php:161-177 | a request key names a field iff it is that field's column name (inverse of `Name`) |
| Records.AnswersExtensional | app/Http/Controllers/ApplicationController.php:100-109 | two sets of answers that agree on all ten fields are equal |
| Controller.All | app/Http/Controllers/ApplicationController.php:76 | `$request->all()` holds every text input, with null kept; a resume file is merged over them, replacing a text input named `resume`, and a text or null `resume` stays when no file was sent |
| Records.Project | app/Http/Controllers/ApplicationController.php:21-26 | the selected view keeps the id, owner and answers and renames `status_public` to `status` |
| Controller.AnswersFrom | app/Http/Controllers/ApplicationController.php:100-109 | create copies each field's request value verbatim, and a missing field becomes null |
| Controller.SuppliedFields | app/Http/Controllers/ApplicationController.php:165-166 | a field's value passes `$value != null` iff it was sent as text other than "", and then it is the text sent |
| Controller.UpdatableKeysAssignable | app/Http/Controllers/ApplicationController.php:161-163 | every whitelisted key is `resume` or the name of an answer field, so the loop only writes answers |
| Controller.EveryFieldUpdatable | app/Http/Controllers/ApplicationController.php:161-163 | all ten answer fields are on the update whitelist |
| Records.Answers.With | app/Http/Controllers/ApplicationController.php:177 | assigning one attribute changes that answer field and no other |
| Controller.Fill | app/Http/Controllers/ApplicationController.php:165-180 | after the loop over `keys`, a field is overwritten iff its key is among them and its value is not loosely null; nothing but the answers changes; a resume file is stored iff `resume` is among them |
| Controller.Overwrite | app/Http/Controllers/ApplicationController.php:160-180 | the whole update loop overwrites exactly the supplied fields, keeps every other attribute, and replaces the stored resume iff a file was sent |
| Controller.GetSelfApplication | app/Http/Controllers/ApplicationController.php:20-31 | `no_application` (404) iff the caller has no application; otherwise the view's `status` is `status_public` and its answers are the stored ones |
| Controller.GetApplications | app/Http/Controllers/ApplicationController.php:43-50 | non-admins get `insufficient_permissions` with HTTP 200 and no data; admins get every record |
| Controller.GetSingleApplication | app/Http/Controllers/ApplicationController.php:34-40 | non-admins are refused; an unknown id is a 404; otherwise the reply lists every record (as written) |
| Controller.GetSingleApplicationIntended | app/Http/Controllers/ApplicationController.php:34-40 | same guards; the reply lists only records with the requested id, and at least one |
| Controller.AddApplication | app/Http/Controllers/ApplicationController.php:98-128 | saving a new application adds exactly the owner's row, with id `nextId`, the given uuid, both statuses pending, email status "none" and the sent answers; every other row is kept, the resume is stored iff a file was sent, and one confirmation to the owner is recorded |
| Controller.CreateApplication | app/Http/Controllers/ApplicationController.php:75-132 | `validation` iff some rule fails, checked before the duplicate check; `application_already_exists` iff valid and the caller already has an application; a 500 iff, past both checks, a truthy `resume` text reaches uploadFile without a file; on every failure the store is unchanged; on success the store is the one `AddApplication` describes |
| Controller.SaveUpdate | app/Http/Controllers/ApplicationController.php:160-182 | saving the update changes only the owner's row, only in the supplied fields, keeps every other row, the id counter and the email log, and replaces the resume iff a file was sent |
| Controller.UpdateApplication | app/Http/Controllers/ApplicationController.php:135-185 | `validation` iff a supplied key fails its rule; `application_does_not_exist` iff valid and the caller has none; a 500 iff, past both checks, a truthy `resume` text reaches uploadFile without a file; no change on any failure; on success only the caller's row changes, only in the supplied fields, and the reply carries the saved row |
| Controller.StatusSwitch | app/Http/Controllers/ApplicationController.php:204-216 | the switch picks a status only when the text loosely equals its name, never `pending`; it falls to `default` iff the value is not text or loosely equals none of accepted, rejected, waitlisted |
| Controller.Restamp | app/Http/Controllers/ApplicationController.php:203-218 | saving a status changes only `status_internal` of the row with that id, and nothing else in the store |
| Controller.SetApplicationStatus | app/Http/Controllers/ApplicationController.php:187-220 | non-admins are refused with no change; invalid input is `validation` with no change; an unknown id is a 404; success applies the chosen status to that row only, and the reply lists every record (as written) |
| Controller.SetApplicationStatusIntended | app/Http/Controllers/ApplicationController.php:203-219 | same outcome and same store effect as the written endpoint, replying with the updated record(s) with that id only |
| Properties.CreateIndex | app/Http/Controllers/ApplicationController.php:77-85 | each field `required` on create has a constraint whose first rule is `required` |
| Properties.EnumerationsArePlain | app/Http/Controllers/ApplicationController.php:77-82 | class year, referral, shirt size and status lists contain no numeric-looking entry |
| Properties.CreateRejectsMissingField | app/Http/Controllers/ApplicationController.php:76-91 | a required field that is missing, null or blank gives `validation` (400) naming that field, and the store is unchanged |
| Properties.CreateRejectsOutsideEnumeration | app/Http/Controllers/ApplicationController.php:77-91 | class_year, referral or shirt_size sent with a value outside its list gives `validation` naming that field, with no change |
| Properties.GradYearLooseMatch | app/Http/Controllers/ApplicationController.php:78-91 | a grad_year loosely equal to no listed year makes create answer `validation` naming grad_year, with no change |
| Properties.ListedGradYearAccepted | app/Http/Controllers/ApplicationController.php:78 | every listed year passes the grad_year constraint |
| Properties.DecimalOutsideYears | app/Http/Controllers/ApplicationController.php:78 | under PHP's numeric comparison, a canonical decimal that is not a listed year loosely equals none of them |
| Properties.GradYearOutsideRejected | app/Http/Controllers/ApplicationController.php:78-91 | a canonical decimal grad_year outside 2017..2025, such as "2016", makes create answer `validation` naming grad_year, with no change |
| Properties.GradYearOutsideRejectedOnUpdate | app/Http/Controllers/ApplicationController.php:139-151 | the same grad_year makes update answer `validation` naming grad_year, with no change |
| Properties.ResumeTextRejected | app/Http/Controllers/ApplicationController.php:86-91 | a `resume` sent as null or non-blank text without a file fails the `file` rule (line 146 for update): create and update answer `validation` naming resume, with no change |
| Properties.BlankResumeCrashes | app/Http/Controllers/ApplicationController.php:116-123 | a whitespace-only `resume` text without a file passes the `file` rule; once the rest validates, create (for a new applicant) and update (for an existing one, lines 165-175) fail with 500 before saving |
| Properties.LongAnswerBoundary | app/Http/Controllers/ApplicationController.php:84-85 | a long answer passes iff it is not blank and has at most 2000 characters; 2001 or more is rejected with no change |
| Properties.CreateTwiceRefused | app/Http/Controllers/ApplicationController.php:93-96 | after a successful create, the same caller's next create is `application_already_exists` (400) and changes nothing |
| Properties.CreateThenViewOwn | app/Http/Controllers/ApplicationController.php:20-31 | after create, the caller's own view shows every text field as sent (null if not sent) and status `pending` |
| Properties.OverwriteIdempotent | app/Http/Controllers/ApplicationController.php:165-180 | running the update loop a second time on its own result changes nothing |
| Properties.UpdateIdempotent | app/Http/Controllers/ApplicationController.php:135-185 | applying the same update twice gives the same reply and store as applying it once |
| Properties.UpdateKeepsStatus | app/Http/Controllers/ApplicationController.php:161-182 | update leaves `status_internal`, `status_public`, `last_email_status`, `user_id`, `uuid` and `id` unchanged |
| Properties.UpdateWithoutApplication | app/Http/Controllers/ApplicationController.php:149-158 | with no application the store is unchanged, and the reply is `application_does_not_exist` (400) iff the supplied fields validate |
| Validation.OnlySentKeysFail | app/Http/Controllers/ApplicationController.php:137-151 | in a rule table without `required`, every failing attribute was sent, and not as blank text |
| Properties.UpdateRulesOptional | app/Http/Controllers/ApplicationController.php:137-147 | no update rule is `required` |
| Properties.UpdateValidatesOnlySentKeys | app/Http/Controllers/ApplicationController.php:137-151 | for every request, each key that fails update's rules, and so each key its `validation` reply names, was sent, and not as blank text: keys not sent are never validated |
| Properties.EmptyUpdateValidates | app/Http/Controllers/ApplicationController.php:137-147 | an update that sends nothing passes validation |
| Properties.AdminGate | app/Http/Controllers/ApplicationController.php:36-47 | a non-admin gets `insufficient_permissions` with no data from both readers and from set status, and set status changes nothing |
| Properties.StatusSwitchTotal | app/Http/Controllers/ApplicationController.php:193-217 | once `status` validates, the switch picks the status named by the text, so its `default` branch is unreachable and `pending` is never set |
| Properties.LooseEqualsPlain | app/Http/Controllers/ApplicationController.php:204-213 | the switch's loose `==` against a non-numeric word is identity |
| Properties.SetStatusApplies | app/Http/Controllers/ApplicationController.php:193-218 | for an admin and an existing id, a status in {accepted, rejected, waitlisted} succeeds and sets `status_internal` of that row to it, leaving the rest of the row and every other row unchanged |
| Properties.SetStatusRejectsOthers | app/Http/Controllers/ApplicationController.php:193-201 | for an admin, any other status value is `validation` (400) with no change, whether or not the id exists |
| Properties.SetStatusHiddenFromApplicant | app/Http/Controllers/ApplicationController.php:20-31 | no status change alters any applicant's own view |
| Properties.ProjectionHidesInternal | app/Http/Controllers/ApplicationController.php:23-25 | the public view does not depend on `status_internal`, `last_email_status` or `uuid` |
| Properties.CreatePreservesValid | app/Http/Controllers/ApplicationController.php:98-125 | create keeps the owner-key and distinct-id invariants |
| Properties.UpdatePreservesValid | app/Http/Controllers/ApplicationController.php:160-182 | update keeps the invariants |
| Properties.SetStatusPreservesValid | app/Http/Controllers/ApplicationController.php:203-218 | set status keeps the invariants |
| Properties.CreateKeepsPublicPending | app/Http/Controllers/ApplicationController.php:112-113 | create sets `status_public` only to `pending` |
| Properties.UpdateKeepsPublicPending | app/Http/Controllers/ApplicationController.php:161-163 | update never publishes a status |
| Properties.SetStatusKeepsPublicPending | app/Http/Controllers/ApplicationController.php:204-213 | set status never publishes a status |
| Properties.ConfirmationOnlyOnSuccess | app/Http/Controllers/ApplicationController.php:125-130 | exactly one confirmation, to the caller, is recorded iff create succeeds |
| Findings.SingleApplicationLeaksOthers | app/Http/Controllers/ApplicationController.php:39 | asking for application 0 in a store holding 0 and 1 returns application 1 too |
| Findings.IntendedSingleApplicationIsExact | app/Http/Controllers/ApplicationController.php:34-40 | on a valid store, the intended reply is exactly the one requested record |
| Findings.StatusReplyLeaksOthers | app/Http/Controllers/ApplicationController.php:219 | accepting application 0 replies with application 1 too |
| Findings.IntendedStatusReplyIsExact | app/Http/Controllers/ApplicationController.php:203-219 | on a valid store, the intended reply is exactly the updated record, and its public status is unchanged |

## Left out

- Resume storage is an owner-keyed map of file contents. `getResumePath` lives in the `Application` model, which is not part of this model. The model assumes that the path depends only on the application's identity (for example its uuid), and that create and update produce the same path for it. create calls it through uploadFile (lines 117-119 and 57) before `save()` at line 125 assigns the primary key. Only under that assumption does one slot per owner stand for it.
- `uploadFile` returns `true` unconditionally (line 59), so the 500 branches at lines 119-122 and 171-174 are unreachable. They are not modelled, and neither are S3 exceptions.
- `getPreSignedUrl` (lines 62-72) is not modelled: it is a foreign S3 call with a clock.
- `sendConfirmApplicationEmail` is only recorded as the caller's id appended to `confirmations`. Delivery is not modelled, and nothing updates `last_email_status`.
- Timestamps (`created_at`, `updated_at`) are not modelled: they come from a clock.
- Authentication, JWT and `PermissionsController::hasRole` are not modelled. The caller's id and role set are given.
- The owner (`with('user')`) joined into admin replies is not modelled. Replies carry application rows only.
- The `integer` and `url` rules and PHP's numeric string comparison are not interpreted. They are parameters of `Oracle`. Only `DecimalsExact` is assumed of the comparison, and only where a lemma requires it: two canonical decimal numerals are numerically equal only when they are the same string.
- The model assumes a PHP release before 7.2. There, `count(null)` is 0 and `count` of a model is 1, which is what lines 27, 94 and 156 rely on. From PHP 7.2, `count` on a value that is not countable raises a warning, which Laravel turns into an exception. Create would then answer 500 for every request that passes validation. Update would do the same for a caller with an application once validation passes. The self view would do the same for such a caller.
- Requests carry text values and null only. JSON numbers, booleans and arrays are not modelled. So, of the loosely null values, only null and "" occur: the text "0" is not loosely null in PHP and is applied by update.
- A `resume` text that reaches uploadFile without a file (lines 117-119 and 169-171) hands `file_get_contents` null. The resulting PHP error is modelled only as the outcome `ServerError` (HTTP 500) with no change to the store; the framework's error page is not.
- Laravel middleware, such as converting empty strings to null, is not part of this model. Strings reach the validator as sent.
- The validation error payload is modelled as the set of failing keys, without the message texts.
- Persistence is assumed to store each submitted text verbatim and return it unchanged. The applications table's column types and lengths are not part of this model. A numeric column could coerce a `hackathon_count` or `grad_year` such as "+3" or "2017.0", and a short column could truncate or refuse a 2000-character long answer.
- Properties.CreateThenViewOwn: the round trip "each field as sent" rests on that verbatim-storage assumption.
- Concurrency is not modelled. Two racing creates are serialised only by the database, and the transitions here are sequential.
- `hackathon_count` is only checked by the `integer` rule, so a negative count is accepted.
- `major` is required on create but has no rule on update, so update accepts any value for it.
- `status_internal` can never be set back to `pending`: the status rule admits only accepted, rejected and waitlisted.

## Findings

| source | as written | input that shows it | evidently intended | confidence | as-written member | corrected member |
|---|---|---|---|---|---|---|
| app/Http/Controllers/ApplicationController.php:39 | `findOrFail($id)->with('user')->get()` calls the static `with` on the found model, which starts a fresh query, so `get()` returns every application | an admin requests id 0 in a store holding applications 0 and 1 | the requested application with its owner | high, not executed | Controller.GetSingleApplication, Findings.SingleApplicationLeaksOthers | Controller.GetSingleApplicationIntended, Findings.IntendedSingleApplicationIsExact |
| app/Http/Controllers/ApplicationController.php:219 | the success reply `$application->with('user')->get()` lists every application in the same way | an admin accepts application 0 in a store holding applications 0 and 1 | the updated application with its owner | high, not executed | Controller.SetApplicationStatus, Findings.StatusReplyLeaksOthers | Controller.SetApplicationStatusIntended, Findings.IntendedStatusReplyIsExact |

=== FILE: common.dfy ===
/** Shared vocabulary of the application workflow model: an optional value
    (PHP's null) and the identifier types of users, applications and blobs. */
module Common {

  /** A value that may be PHP's `null`. */
  datatype Option<+T> = None | Some(value: T)

  /** Primary key of a row in the users table. */
  type UserId = nat

  /** Auto-increment primary key of a row in the applications table. */
  type AppId = nat

  /** The externally exposed identifier that Uuid::generate() produces. */
  type Uuid = string

  /** Raw contents of an uploaded file. */
  type Bytes = seq<bv8>
}

=== FILE: controller.dfy ===
/** ApplicationController: the applicant's create, update and self-view
    endpoints and the admin-only listing and status endpoints, each a pure
    transition from the caller, the request and the store to a reply and the
    new store. */
module Controller {
  import opened Common
  import opened Validation
  import opened Records

  /** The authenticated caller: user id and role names. */
  datatype Principal = Principal(id: UserId, roles: set<string>)

  /** `PermissionsController::hasRole('admin')`. */
  predicate IsAdmin(p: Principal) {
    "admin" in p.roles
  }

  /** An HTTP request: the text inputs (a value may be JSON null) and the
      file part named `resume`, if one was sent. */
  datatype Request = Request(input: map<string, Option<string>>, resume: Option<Bytes>)

  /** `$request->all()`: the text inputs with the uploaded files merged over
      them, so a resume file replaces a text input of the same name, and a
      text or null `resume` stays when no file was sent. */
  function All(req: Request): (d: Input)
    ensures d.Keys == req.input.Keys + (if req.resume.Some? then {"resume"} else {})
    ensures forall k :: k in req.input && (k != "resume" || req.resume.None?) ==>
      d[k] == (if req.input[k].Some? then Text(req.input[k].value) else Null)
    ensures req.resume.Some? ==> d["resume"] == Upload(req.resume.value)
  {
    var text := map k | k in req.input :: if req.input[k].Some? then Text(req.input[k].value) else Null;
    if req.resume.Some? then text["resume" := Upload(req.resume.value)] else text
  }

  /** The `message` discriminator of a reply; ModelNotFound is the exception
      findOrFail throws, which the framework renders; ServerError is the
      ErrorException Laravel's error handler makes of the warning "Filename
      cannot be empty" that `file_get_contents` emits when uploadFile is
      handed no file. */
  datatype Outcome =
    | Success
    | NoApplication
    | InsufficientPermissions
    | Invalid(errors: set<string>)
    | AlreadyExists
    | DoesNotExist
    | ModelNotFound
    | ServerError

  function HttpStatus(o: Outcome): nat {
    match o
    case Success => 200
    case NoApplication => 404
    case InsufficientPermissions => 200
    case Invalid(_) => 400
    case AlreadyExists => 400
    case DoesNotExist => 400
    case ModelNotFound => 404
    case ServerError => 500
  }

  /** The payload beside the message. */
  datatype Body = NoBody | Own(view: PublicView) | Listing(records: set<Application>) | Saved(app: Application)

  datatype Reply = Reply(outcome: Outcome, body: Body)

  /** A reply together with the store after the request. */
  datatype Step = Step(reply: Reply, db: Db)

  const ClassYears: seq<string> := ["freshman", "sophomore", "junior", "senior"]
  const GradYears: seq<string> := ["2017", "2018", "2019", "2020", "2021", "2022", "2023", "2024", "2025"]
  const Referrals: seq<string> := ["social_media", "website", "flyers", "class", "friend", "none"]
  const ShirtSizes: seq<string> := ["s", "m", "l", "xl", "xxl"]
  const StatusChoices: seq<string> := ["accepted", "rejected", "waitlisted"]
  const LongAnswerLimit: nat := 2000

  /** The rules createApplication validates against. */
  const CreateRules: seq<Constraint> := [
    Constraint("class_year", [Required, In(ClassYears)]),
    Constraint("grad_year", [Required, In(GradYears)]),
    Constraint("major", [Required]),
    Constraint("referral", [Required, In(Referrals)]),
    Constraint("hackathon_count", [Required, Integer]),
    Constraint("shirt_size", [Required, In(ShirtSizes)]),
    Constraint("website", [Url]),
    Constraint("longanswer_1", [Required, Max(LongAnswerLimit)]),
    Constraint("longanswer_2", [Required, Max(LongAnswerLimit)]),
    Constraint("resume", [File])
  ]

  /** The rules updateApplication validates against: nothing is required. */
  const UpdateRules: seq<Constraint> := [
    Constraint("class_year", [In(ClassYears)]),
    Constraint("grad_year", [In(GradYears)]),
    Constraint("referral", [In(Referrals)]),
    Constraint("hackathon_count", [Integer]),
    Constraint("shirt_size", [In(ShirtSizes)]),
    Constraint("website", [Url]),
    Constraint("longanswer_1", [Max(LongAnswerLimit)]),
    Constraint("longanswer_2", [Max(LongAnswerLimit)]),
    Constraint("resume", [File])
  ]

  /** The rules setApplicationStatus validates against. */
  const StatusRules: seq<Constraint> := [Constraint("status", [Required, In(StatusChoices)])]

  /** The keys `$request->only(...)` takes in updateApplication, in order. */
  const UpdatableKeys: seq<string> := [
    "class_year", "grad_year", "major", "referral", "hackathon_count", "shirt_size",
    "website", "dietary_restrictions", "longanswer_1", "longanswer_2", "resume"
  ]

  /** The value stored for a text attribute: `$request->field`. */
  function AsText(d: Datum): Option<string> {
    match d
    case Text(s) => Some(s)
    case _ => None
  }

  /** `$value != null` is false: PHP's loose comparison equates null and "". */
  predicate LooselyNull(d: Datum) {
    d.Null? || (d.Text? && d.text == "")
  }

  /** PHP's truthiness of a string: only "" and "0" are false. */
  predicate Truthy(s: string) {
    s != "" && s != "0"
  }

  /** `$request->resume` is truthy but `$request->file('resume')` is null: a
      text value under `resume` that the `file` rule skipped (a blank one).
      Both endpoints then pass null to uploadFile, whose `file_get_contents`
      fails before anything is saved. */
  predicate UploadWithoutFile(input: Input) {
    Lookup(input, "resume").Text? && Truthy(Lookup(input, "resume").text)
  }

  /** A text input the update loop applies: present, not null and not "". */
  predicate Supplied(req: Request, key: string) {
    key in req.input && req.input[key].Some? && req.input[key].value != ""
  }

  /** `after` is `before` with every supplied field replaced by the text sent. */
  predicate AppliedUpdate(req: Request, before: Answers, after: Answers) {
    forall f: Field :: after.Get(f) == if Supplied(req, Name(f)) then req.input[Name(f)] else before.Get(f)
  }

  /** A field's request value, as the update loop sees it, is applied
      exactly when it is supplied, and then it is the text sent. */
  lemma SuppliedFields(req: Request)
    ensures forall f: Field :: !LooselyNull(Lookup(All(req), Name(f))) <==> Supplied(req, Name(f))
    ensures forall f: Field :: Supplied(req, Name(f)) ==> AsText(Lookup(All(req), Name(f))) == req.input[Name(f)]
  {
  }

  /** The answers createApplication copies from the request, one per field. */
  function AnswersFrom(input: Input): (a: Answers)
    ensures forall f: Field :: a.Get(f) == AsText(Lookup(input, Name(f)))
  {
    Answers(
      AsText(Lookup(input, "class_year")),
      AsText(Lookup(input, "grad_year")),
      AsText(Lookup(input, "major")),
      AsText(Lookup(input, "referral")),
      AsText(Lookup(input, "hackathon_count")),
      AsText(Lookup(input, "shirt_size")),
      AsText(Lookup(input, "dietary_restrictions")),
      AsText(Lookup(input, "website")),
      AsText(Lookup(input, "longanswer_1")),
      AsText(Lookup(input, "longanswer_2")))
  }

  /** GET /application/self. */
  function GetSelfApplication(caller: Principal, db: Db): (r: Reply)
    ensures r.outcome == NoApplication <==> caller.id !in db.apps
    ensures r.outcome == NoApplication ==> r.body == NoBody && HttpStatus(r.outcome) == 404
    ensures caller.id in db.apps ==>
      r.outcome == Success && r.body.Own? && r.body.view.status == db.apps[caller.id].statusPublic
      && r.body.view.answers == db.apps[caller.id].answers
  {
    if caller.id !in db.apps then Reply(NoApplication, NoBody)
    else Reply(Success, Own(Project(db.apps[caller.id])))
  }

  /** GET /applications: every application, for admins only. */
  function GetApplications(caller: Principal, db: Db): (r: Reply)
    ensures !IsAdmin(caller) ==> r == Reply(InsufficientPermissions, NoBody) && HttpStatus(r.outcome) == 200
    ensures IsAdmin(caller) ==> r.outcome == Success && r.body == Listing(db.apps.Values)
  {
    if !IsAdmin(caller) then Reply(InsufficientPermissions, NoBody)
    else Reply(Success, Listing(db.apps.Values))
  }

  /** GET /application/{id}, as written: after findOrFail succeeds, the
      chained `->with('user')->get()` starts a fresh query, so the reply
      lists every application, not only the requested one. */
  function GetSingleApplication(caller: Principal, id: AppId, db: Db): (r: Reply)
    ensures !IsAdmin(caller) ==> r == Reply(InsufficientPermissions, NoBody)
    ensures IsAdmin(caller) && !HasId(db, id) ==> r == Reply(ModelNotFound, NoBody) && HttpStatus(r.outcome) == 404
    ensures IsAdmin(caller) && HasId(db, id) ==> r == Reply(Success, Listing(db.apps.Values))
  {
    if !IsAdmin(caller) then Reply(InsufficientPermissions, NoBody)
    else if !HasId(db, id) then Reply(ModelNotFound, NoBody)
    else Reply(Success, Listing(db.apps.Values))
  }

  /** The records whose primary key is `id`. */
  function WithId(db: Db, id: AppId): (s: set<Application>)
    ensures forall a :: a in s <==> a in db.apps.Values && a.id == id
  {
    set u | u in db.apps && db.apps[u].id == id :: db.apps[u]
  }

  /** GET /application/{id} as evidently intended: only the requested record. */
  function GetSingleApplicationIntended(caller: Principal, id: AppId, db: Db): (r: Reply)
    ensures !IsAdmin(caller) ==> r == Reply(InsufficientPermissions, NoBody)
    ensures IsAdmin(caller) && !HasId(db, id) ==> r == Reply(ModelNotFound, NoBody)
    ensures IsAdmin(caller) && HasId(db, id) ==>
      r.outcome == Success && r.body.Listing? && r.body.records != {}
      && forall a :: a in r.body.records ==> a.id == id && a in db.apps.Values
  {
    if !IsAdmin(caller) then Reply(InsufficientPermissions, NoBody)
    else if !HasId(db, id) then Reply(ModelNotFound, NoBody)
    else
      var u :| u in db.apps && db.apps[u].id == id;
      assert db.apps[u] in WithId(db, id);
      Reply(Success, Listing(WithId(db, id)))
  }

  /** The store after createApplication saves a new row for `owner`: exactly
      that row is added, with the next id, the given uuid, both statuses
      pending, email status "none" and the request's answers; the resume is
      stored if one was sent, and one confirmation goes to the owner. */
  function AddApplication(owner: UserId, req: Request, uuid: Uuid, db: Db): (r: Db)
    requires owner !in db.apps
    ensures r.apps.Keys == db.apps.Keys + {owner}
    ensures forall u :: u in db.apps ==> r.apps[u] == db.apps[u]
    ensures r.apps[owner].id == db.nextId && r.apps[owner].uuid == uuid && r.apps[owner].userId == owner
    ensures r.apps[owner].statusInternal == Pending && r.apps[owner].statusPublic == Pending
    ensures r.apps[owner].lastEmailStatus == "none"
    ensures forall f: Field :: r.apps[owner].answers.Get(f) == AsText(Lookup(All(req), Name(f)))
    ensures r.resumes == if req.resume.Some? then db.resumes[owner := req.resume.value] else db.resumes
    ensures r.nextId == db.nextId + 1 && r.confirmations == db.confirmations + [owner]
  {
    var app := Application(db.nextId, uuid, owner, AnswersFrom(All(req)), Pending, Pending, "none");
    var resumes := if req.resume.Some? then db.resumes[owner := req.resume.value] else db.resumes;
    Db(db.apps[owner := app], resumes, db.nextId + 1, db.confirmations + [owner])
  }

  /** POST /application. `uuid` is the fresh identifier Uuid::generate() returns. */
  function CreateApplication(o: Oracle, caller: Principal, req: Request, uuid: Uuid, db: Db): (r: Step)
    ensures r.reply.outcome.Invalid? <==> !Passes(o, All(req), CreateRules)
    ensures r.reply.outcome.Invalid? ==> r.reply.outcome.errors == Failures(o, All(req), CreateRules)
    ensures r.reply.outcome == AlreadyExists <==> Passes(o, All(req), CreateRules) && caller.id in db.apps
    ensures r.reply.outcome == ServerError <==>
      Passes(o, All(req), CreateRules) && caller.id !in db.apps && UploadWithoutFile(All(req))
    ensures r.reply.outcome == Success <==>
      Passes(o, All(req), CreateRules) && caller.id !in db.apps && !UploadWithoutFile(All(req))
    ensures r.reply.outcome.Invalid? || r.reply.outcome == AlreadyExists || r.reply.outcome == ServerError
            || r.reply.outcome == Success
    ensures r.reply.body == NoBody
    ensures r.reply.outcome != Success ==> r.db == db
    ensures r.reply.outcome == Success ==> caller.id !in db.apps && r.db == AddApplication(caller.id, req, uuid, db)
  {
    var errs := Failures(o, All(req), CreateRules);
    if errs != {} then Step(Reply(Invalid(errs), NoBody), db)
    else if caller.id in db.apps then Step(Reply(AlreadyExists, NoBody), db)
    else if UploadWithoutFile(All(req)) then Step(Reply(ServerError, NoBody), db)
    else Step(Reply(Success, NoBody), AddApplication(caller.id, req, uuid, db))
  }

  /** Keys the update loop can meet: `resume` or the name of a field. */
  predicate Assignable(keys: seq<string>) {
    forall i :: 0 <= i < |keys| ==> keys[i] == "resume" || FieldNamed(keys[i]).Some?
  }

  /** Every key of the whitelist is assignable. */
  lemma UpdatableKeysAssignable()
    ensures Assignable(UpdatableKeys)
  {
  }

  /** Every field is on the whitelist, so an update can reach each of them. */
  lemma EveryFieldUpdatable()
    ensures forall f: Field :: Name(f) in UpdatableKeys
  {
  }

  /** The record and the resume store while updateApplication walks its keys. */
  datatype Progress = Progress(app: Application, resumes: map<UserId, Bytes>)

  /** The `foreach($data as $key => $value)` loop of updateApplication over
      `keys`: a key whose value is not loosely null overwrites its attribute,
      except `resume`, whose file is uploaded to the owner's resume slot. A
      text `resume` is skipped here; a truthy one never reaches the loop's
      save (see UploadWithoutFile). */
  function Fill(owner: UserId, keys: seq<string>, input: Input, p: Progress): (r: Progress)
    requires Assignable(keys)
    ensures r.app == p.app.(answers := r.app.answers)
    ensures forall f: Field :: r.app.answers.Get(f) ==
                               (if Name(f) in keys && !LooselyNull(Lookup(input, Name(f))) then AsText(Lookup(input, Name(f))) else p.app.answers.Get(f))
    ensures r.resumes ==
      if "resume" in keys && Lookup(input, "resume").Upload? then p.resumes[owner := Lookup(input, "resume").bytes] else p.resumes
  {
    if keys == [] then p
    else
      var key := keys[0];
      var d := Lookup(input, key);
      var q :=
        if LooselyNull(d) then p
        else if key == "resume" then (if d.Upload? then p.(resumes := p.resumes[owner := d.bytes]) else p)
        else p.(app := p.app.(answers := p.app.answers.With(FieldNamed(key).value, AsText(d))));
      assert forall k :: k in keys <==> k == key || k in keys[1..];
      Fill(owner, keys[1..], input, q)
  }

  /** The whole loop of updateApplication over the whitelisted keys: every
      field supplied with text other than "" is overwritten with it, every
      other attribute keeps its value, and a resume file replaces the owner's
      stored resume. */
  function Overwrite(owner: UserId, req: Request, p: Progress): (r: Progress)
    ensures r.app == p.app.(answers := r.app.answers)
    ensures AppliedUpdate(req, p.app.answers, r.app.answers)
    ensures r.resumes == if req.resume.Some? then p.resumes[owner := req.resume.value] else p.resumes
  {
    UpdatableKeysAssignable();
    EveryFieldUpdatable();
    SuppliedFields(req);
    assert "resume" in UpdatableKeys by { assert UpdatableKeys[10] == "resume"; }
    Fill(owner, UpdatableKeys, All(req), p)
  }

  /** The store after updateApplication saves the owner's row: only that row
      changes, only in the supplied fields, and the resume is replaced iff a
      file was sent. */
  function SaveUpdate(owner: UserId, req: Request, db: Db): (r: Db)
    requires owner in db.apps
    ensures r.apps.Keys == db.apps.Keys
    ensures forall u :: u in db.apps && u != owner ==> r.apps[u] == db.apps[u]
    ensures r.apps[owner] == db.apps[owner].(answers := r.apps[owner].answers)
    ensures AppliedUpdate(req, db.apps[owner].answers, r.apps[owner].answers)
    ensures r.resumes == if req.resume.Some? then db.resumes[owner := req.resume.value] else db.resumes
    ensures r.nextId == db.nextId && r.confirmations == db.confirmations
  {
    var p := Overwrite(owner, req, Progress(db.apps[owner], db.resumes));
    db.(apps := db.apps[owner := p.app], resumes := p.resumes)
  }

  /** PUT /application. */
  function UpdateApplication(o: Oracle, caller: Principal, req: Request, db: Db): (r: Step)
    ensures r.reply.outcome.Invalid? <==> !Passes(o, All(req), UpdateRules)
    ensures r.reply.outcome.Invalid? ==> r.reply.outcome.errors == Failures(o, All(req), UpdateRules)
    ensures r.reply.outcome == DoesNotExist <==> Passes(o, All(req), UpdateRules) && caller.id !in db.apps
    ensures r.reply.outcome == ServerError <==>
      Passes(o, All(req), UpdateRules) && caller.id in db.apps && UploadWithoutFile(All(req))
    ensures r.reply.outcome == Success <==>
      Passes(o, All(req), UpdateRules) && caller.id in db.apps && !UploadWithoutFile(All(req))
    ensures r.reply.outcome.Invalid? || r.reply.outcome == DoesNotExist || r.reply.outcome == ServerError
            || r.reply.outcome == Success
    ensures r.reply.outcome != Success ==> r.db == db && r.reply.body == NoBody
    ensures r.reply.outcome == Success ==>
      caller.id in db.apps && r.db == SaveUpdate(caller.id, req, db) && r.reply.body == Saved(r.db.apps[caller.id])
  {
    var errs := Failures(o, All(req), UpdateRules);
    if errs != {} then Step(Reply(Invalid(errs), NoBody), db)
    else if caller.id !in db.apps then Step(Reply(DoesNotExist, NoBody), db)
    else if UploadWithoutFile(All(req)) then Step(Reply(ServerError, NoBody), db)
    else
      var db' := SaveUpdate(caller.id, req, db);
      Step(Reply(Success, Saved(db'.apps[caller.id])), db')
  }

  /** The `switch($request->status)` of setApplicationStatus; PHP's switch
      compares loosely. None is its `default` branch. */
  function StatusSwitch(o: Oracle, d: Datum): (r: Option<Status>)
    ensures r.Some? ==> d.Text? && LooseEquals(o, d.text, StatusName(r.value)) && r.value != Pending
    ensures r.None? <==> !d.Text? || forall c :: c in StatusChoices ==> !LooseEquals(o, d.text, c)
  {
    match d
    case Text(s) =>
      if LooseEquals(o, s, "accepted") then Some(Accepted)
      else if LooseEquals(o, s, "waitlisted") then Some(Waitlisted)
      else if LooseEquals(o, s, "rejected") then Some(Rejected)
      else None
    case _ => None
  }

  /** Saving status_internal on the row with primary key `id`. */
  function Restamp(db: Db, id: AppId, s: Status): (r: Db)
    ensures r.apps.Keys == db.apps.Keys
    ensures forall u :: u in db.apps ==>
      r.apps[u] == if db.apps[u].id == id then db.apps[u].(statusInternal := s) else db.apps[u]
    ensures r.resumes == db.resumes && r.nextId == db.nextId && r.confirmations == db.confirmations
  {
    db.(apps := map u | u in db.apps :: if db.apps[u].id == id then db.apps[u].(statusInternal := s) else db.apps[u])
  }

  /** The checks of setApplicationStatus and the status it picks, if all pass. */
  function Decide(o: Oracle, caller: Principal, req: Request, id: AppId, db: Db): Outcome {
    if !IsAdmin(caller) then InsufficientPermissions
    else
      var errs := Failures(o, All(req), StatusRules);
      if errs != {} then Invalid(errs)
      else if !HasId(db, id) then ModelNotFound
      else if StatusSwitch(o, Lookup(All(req), "status")).None? then Invalid({"invalid_status"})
      else Success
  }

  /** POST /application/{id}/status, as written: the reply echoes every
      application, since `$application->with('user')->get()` starts a fresh query. */
  function SetApplicationStatus(o: Oracle, caller: Principal, req: Request, id: AppId, db: Db): (r: Step)
    ensures !IsAdmin(caller) ==> r == Step(Reply(InsufficientPermissions, NoBody), db)
    ensures IsAdmin(caller) && !Passes(o, All(req), StatusRules) ==> r.reply.outcome.Invalid? && r.db == db
    ensures IsAdmin(caller) && Passes(o, All(req), StatusRules) && !HasId(db, id) ==> r == Step(Reply(ModelNotFound, NoBody), db)
    ensures r.reply.outcome != Success ==> r.db == db
    ensures r.reply.outcome == Success ==>
      && StatusSwitch(o, Lookup(All(req), "status")).Some?
      && r.db == Restamp(db, id, StatusSwitch(o, Lookup(All(req), "status")).value)
      && r.reply.body == Listing(r.db.apps.Values)
  {
    var outcome := Decide(o, caller, req, id, db);
    if outcome != Success then Step(Reply(outcome, NoBody), db)
    else
      var db' := Restamp(db, id, StatusSwitch(o, Lookup(All(req), "status")).value);
      Step(Reply(Success, Listing(db'.apps.Values)), db')
  }

  /** POST /application/{id}/status as evidently intended: the same checks and
      store effect, replying with the updated record only. */
  function SetApplicationStatusIntended(o: Oracle, caller: Principal, req: Request, id: AppId, db: Db): (r: Step)
    ensures r.db == SetApplicationStatus(o, caller, req, id, db).db
    ensures r.reply.outcome == SetApplicationStatus(o, caller, req, id, db).reply.outcome
    ensures r.reply.outcome == Success ==>
      r.reply.body.Listing? && r.reply.body.records == WithId(r.db, id) && r.reply.body.records != {}
  {
    var outcome := Decide(o, caller, req, id, db);
    if outcome != Success then Step(Reply(outcome, NoBody), db)
    else
      var db' := Restamp(db, id, StatusSwitch(o, Lookup(All(req), "status")).value);
      var u :| u in db.apps && db.apps[u].id == id;
      assert db'.apps[u] in WithId(db', id);
      Step(Reply(Success, Listing(WithId(db', id))), db')
  }
}

=== FILE: findings.dfy ===
/** Two replies that return more than the request asks for: fetching one
    application, and changing one application's status, both answer with
    every application in the store. */
module Findings {
  import opened Common
  import opened Validation
  import opened Records
  import opened Controller

  const Admin := Principal(1, {"admin"})

  function Sample(id: AppId, owner: UserId): Application {
    Application(id, "", owner, Answers(None, None, None, None, None, None, None, None, None, None), Pending, Pending, "none")
  }

  /** Two users, each with one application (ids 0 and 1). */
  const TwoApplications := Db(map[7 := Sample(0, 7), 8 := Sample(1, 8)], map[], 2, [])

  const AnyOracle := Oracle(s => true, s => true, (a, b) => false)

  /** As written: asking for application 0 returns application 1 as well. */
  lemma SingleApplicationLeaksOthers()
    ensures Valid(TwoApplications)
    ensures var r := GetSingleApplication(Admin, 0, TwoApplications);
            r.outcome == Success && r.body.Listing? && Sample(1, 8) in r.body.records
  {
    assert TwoApplications.apps[7].id == 0;
    assert Sample(1, 8) == TwoApplications.apps[8];
  }

  /** As intended: on a valid store the reply is exactly the requested record. */
  lemma IntendedSingleApplicationIsExact(caller: Principal, id: AppId, db: Db)
    requires Valid(db) && IsAdmin(caller) && HasId(db, id)
    ensures var r := GetSingleApplicationIntended(caller, id, db);
            exists u :: u in db.apps && db.apps[u].id == id && r.body == Listing({db.apps[u]})
  {
  }

  /** As written: accepting application 0 replies with application 1 too. */
  lemma StatusReplyLeaksOthers()
    ensures var req := Request(map["status" := Some("accepted")], None);
            var r := SetApplicationStatus(AnyOracle, Admin, req, 0, TwoApplications);
            r.reply.outcome == Success && r.reply.body.Listing? && Sample(1, 8) in r.reply.body.records
  {
    var req := Request(map["status" := Some("accepted")], None);
    assert TwoApplications.apps[7].id == 0;
    assert HasId(TwoApplications, 0);
    var input := All(req);
    assert Lookup(input, "status") == Text("accepted");
    var c := StatusRules[0];
    assert !Blank("accepted") by { assert !Trimmed("accepted"[0]); }
    assert LooseEquals(AnyOracle, "accepted", StatusChoices[0]);
    assert Holds(AnyOracle, c.rules[1], Text("accepted"));
    assert Satisfies(AnyOracle, input, c);
    var db' := SetApplicationStatus(AnyOracle, Admin, req, 0, TwoApplications).db;
    assert db'.apps[8] == Sample(1, 8);
  }

  /** As intended: on a valid store the reply is exactly the updated record,
      and the store changes exactly as in the written endpoint. */
  lemma IntendedStatusReplyIsExact(o: Oracle, caller: Principal, req: Request, id: AppId, db: Db)
    requires Valid(db)
    requires SetApplicationStatusIntended(o, caller, req, id, db).reply.outcome == Success
    ensures var r := SetApplicationStatusIntended(o, caller, req, id, db);
            exists u :: (u in db.apps && db.apps[u].id == id && r.reply.body == Listing({r.db.apps[u]})
                         && r.db.apps[u].statusPublic == db.apps[u].statusPublic)
  {
  }
}

=== FILE: properties.dfy ===
/** Properties of the application workflow: what each endpoint rejects, what
    a successful request changes and leaves alone, and how the endpoints
    compose. */
module Properties {
  import opened Common
  import opened Validation
  import opened Records
  import opened Controller

  /** The keys createApplication marks `required`. */
  const RequiredOnCreate: set<string> := {
    "class_year", "grad_year", "major", "referral", "hackathon_count",
    "shirt_size", "longanswer_1", "longanswer_2"
  }

  /** The position of a key in CreateRules. */
  function CreateIndex(k: string): (i: nat)
    requires k in RequiredOnCreate
    ensures i < |CreateRules| && CreateRules[i].key == k && CreateRules[i].rules[0] == Required
  {
    if k == "class_year" then 0
    else if k == "grad_year" then 1
    else if k == "major" then 2
    else if k == "referral" then 3
    else if k == "hackathon_count" then 4
    else if k == "shirt_size" then 5
    else if k == "longanswer_1" then 7
    else 8
  }

  /** The fixed enumerations other than the years admit no loose match. */
  lemma EnumerationsArePlain()
    ensures PlainList(ClassYears) && PlainList(Referrals) && PlainList(ShirtSizes) && PlainList(StatusChoices)
  {
  }

  /** An attribute that fails one of createApplication's constraints makes it
      answer `validation` naming that attribute, and nothing is stored. */
  lemma CreateRejectsFailing(o: Oracle, caller: Principal, req: Request, uuid: Uuid, db: Db, i: nat)
    requires i < |CreateRules| && !Satisfies(o, All(req), CreateRules[i])
    ensures var r := CreateApplication(o, caller, req, uuid, db);
            r.reply.outcome.Invalid? && CreateRules[i].key in r.reply.outcome.errors
            && HttpStatus(r.reply.outcome) == 400 && r.db == db
  {
  }

  /** A required field that is missing, null or blank makes createApplication
      answer `validation` (400) naming that field, before the duplicate check,
      and nothing is stored. */
  lemma CreateRejectsMissingField(o: Oracle, caller: Principal, req: Request, uuid: Uuid, db: Db, k: string)
    requires k in RequiredOnCreate
    requires k !in req.input || req.input[k].None? || Blank(req.input[k].value)
    ensures var r := CreateApplication(o, caller, req, uuid, db);
            r.reply.outcome.Invalid? && k in r.reply.outcome.errors
            && HttpStatus(r.reply.outcome) == 400 && r.db == db
  {
    var input := All(req);
    var c := CreateRules[CreateIndex(k)];
    assert k != "resume";
    assert !Holds(o, c.rules[0], Lookup(input, k));
    assert !Satisfies(o, input, c);
    CreateRejectsFailing(o, caller, req, uuid, db, CreateIndex(k));
  }

  /** An enumerated field sent with a value outside its list is rejected;
      class_year, referral and shirt_size compare exactly. */
  lemma CreateRejectsOutsideEnumeration(o: Oracle, caller: Principal, req: Request, uuid: Uuid, db: Db, k: string, v: string)
    requires k in {"class_year", "referral", "shirt_size"}
    requires k in req.input && req.input[k] == Some(v)
    requires k == "class_year" ==> v !in ClassYears
    requires k == "referral" ==> v !in Referrals
    requires k == "shirt_size" ==> v !in ShirtSizes
    ensures var r := CreateApplication(o, caller, req, uuid, db);
            r.reply.outcome.Invalid? && k in r.reply.outcome.errors && r.db == db
  {
    var i := CreateIndex(k);
    var allowed := CreateRules[i].rules[1].allowed;
    EnumerationsArePlain();
    InPlainList(o, v, allowed);
    assert Lookup(All(req), k) == Text(v);
    if Blank(v) {
      assert !Holds(o, CreateRules[i].rules[0], Text(v));
    } else {
      assert Applies(CreateRules[i].rules[1], All(req), k);
      assert !Holds(o, CreateRules[i].rules[1], Text(v));
    }
    assert !Satisfies(o, All(req), CreateRules[i]);
  }

  /** grad_year is matched loosely (numeric strings compare by value): a
      value loosely equal to no listed year is rejected. */
  lemma GradYearLooseMatch(o: Oracle, caller: Principal, req: Request, uuid: Uuid, db: Db, v: string)
    requires "grad_year" in req.input && req.input["grad_year"] == Some(v)
    requires !InList(o, v, GradYears)
    ensures var r := CreateApplication(o, caller, req, uuid, db);
            r.reply.outcome.Invalid? && "grad_year" in r.reply.outcome.errors && r.db == db
  {
    var c := CreateRules[1];
    var d := Lookup(All(req), "grad_year");
    assert d == Text(v);
    if Blank(v) {
      assert !Holds(o, c.rules[0], d);
    } else {
      assert Applies(c.rules[1], All(req), "grad_year") && !Holds(o, c.rules[1], d);
    }
    assert !Satisfies(o, All(req), c);
    CreateRejectsFailing(o, caller, req, uuid, db, 1);
  }

  /** Each listed year passes the grad_year constraint. */
  lemma ListedGradYearAccepted(o: Oracle, req: Request, v: string)
    requires "grad_year" in req.input && req.input["grad_year"] == Some(v)
    requires v in GradYears
    ensures Satisfies(o, All(req), CreateRules[1])
  {
    assert Lookup(All(req), "grad_year") == Text(v);
    var i :| 0 <= i < |GradYears| && GradYears[i] == v;
    assert LooseEquals(o, v, GradYears[i]);
    assert !Blank(v) by { assert !Trimmed(v[0]); }
  }

  /** A canonical decimal that is not a listed year is loosely equal to none of them. */
  lemma DecimalOutsideYears(o: Oracle, v: string)
    requires DecimalsExact(o)
    requires Decimal(v) && v !in GradYears
    ensures !InList(o, v, GradYears)
  {
  }

  /** Under PHP's numeric comparison, a grad_year that is a canonical
      decimal outside 2017..2025 (such as "2016") matches no listed year, so
      createApplication answers `validation` naming grad_year, and nothing
      changes. */
  lemma GradYearOutsideRejected(o: Oracle, caller: Principal, req: Request, uuid: Uuid, db: Db, v: string)
    requires DecimalsExact(o)
    requires Decimal(v) && v !in GradYears
    requires "grad_year" in req.input && req.input["grad_year"] == Some(v)
    ensures var r := CreateApplication(o, caller, req, uuid, db);
            r.reply.outcome.Invalid? && "grad_year" in r.reply.outcome.errors && r.db == db
  {
    DecimalOutsideYears(o, v);
    GradYearLooseMatch(o, caller, req, uuid, db, v);
  }

  /** The same grad_year sent to updateApplication is rejected there too. */
  lemma GradYearOutsideRejectedOnUpdate(o: Oracle, caller: Principal, req: Request, db: Db, v: string)
    requires DecimalsExact(o)
    requires Decimal(v) && v !in GradYears
    requires "grad_year" in req.input && req.input["grad_year"] == Some(v)
    ensures var r := UpdateApplication(o, caller, req, db);
            r.reply.outcome.Invalid? && "grad_year" in r.reply.outcome.errors && r.db == db
  {
    DecimalOutsideYears(o, v);
    var c := UpdateRules[1];
    assert Lookup(All(req), "grad_year") == Text(v);
    assert !Blank(v) by { assert !Trimmed(v[0]); }
    assert Applies(c.rules[0], All(req), "grad_year");
    assert !Satisfies(o, All(req), c);
  }

  /** A `resume` sent as null or as non-blank text, with no file, fails the
      `file` rule: both createApplication and updateApplication answer
      `validation` naming resume, and nothing changes. */
  lemma ResumeTextRejected(o: Oracle, caller: Principal, req: Request, uuid: Uuid, db: Db)
    requires req.resume.None? && "resume" in req.input
    requires req.input["resume"].None? || !Blank(req.input["resume"].value)
    ensures var r := CreateApplication(o, caller, req, uuid, db);
            r.reply.outcome.Invalid? && "resume" in r.reply.outcome.errors && r.db == db
    ensures var r := UpdateApplication(o, caller, req, db);
            r.reply.outcome.Invalid? && "resume" in r.reply.outcome.errors && r.db == db
  {
    var d := Lookup(All(req), "resume");
    var c := CreateRules[9];
    var u := UpdateRules[8];
    assert Applies(c.rules[0], All(req), "resume") && !Holds(o, c.rules[0], d);
    assert Applies(u.rules[0], All(req), "resume") && !Holds(o, u.rules[0], d);
    assert !Satisfies(o, All(req), c);
    assert !Satisfies(o, All(req), u);
  }

  /** A whitespace-only `resume` text with no file passes the `file` rule
      (it is skipped as blank), but is truthy: once everything else
      validates, both endpoints hand uploadFile no file and fail with a 500
      before saving. */
  lemma BlankResumeCrashes(o: Oracle, caller: Principal, req: Request, uuid: Uuid, db: Db, s: string)
    requires req.resume.None? && "resume" in req.input && req.input["resume"] == Some(s)
    requires s != "" && Blank(s)
    ensures Satisfies(o, All(req), CreateRules[9]) && Satisfies(o, All(req), UpdateRules[8])
    ensures Passes(o, All(req), CreateRules) && caller.id !in db.apps ==>
      var r := CreateApplication(o, caller, req, uuid, db);
      r.reply.outcome == ServerError && HttpStatus(r.reply.outcome) == 500 && r.db == db
    ensures Passes(o, All(req), UpdateRules) && caller.id in db.apps ==>
      var r := UpdateApplication(o, caller, req, db);
      r.reply.outcome == ServerError && HttpStatus(r.reply.outcome) == 500 && r.db == db
  {
    assert Lookup(All(req), "resume") == Text(s);
    assert s != "0" by { assert Trimmed(s[0]); }
  }

  /** The long answers: the attribute passes exactly when the text is not
      blank and has at most 2000 characters; one more character is rejected. */
  lemma LongAnswerBoundary(o: Oracle, caller: Principal, req: Request, uuid: Uuid, db: Db, k: string, s: string)
    requires k == "longanswer_1" || k == "longanswer_2"
    requires k in req.input && req.input[k] == Some(s)
    ensures Satisfies(o, All(req), CreateRules[CreateIndex(k)]) <==> !Blank(s) && |s| <= LongAnswerLimit
    ensures |s| > LongAnswerLimit ==>
      var r := CreateApplication(o, caller, req, uuid, db);
      r.reply.outcome.Invalid? && k in r.reply.outcome.errors && r.db == db
  {
    var c := CreateRules[CreateIndex(k)];
    assert Lookup(All(req), k) == Text(s);
    if !Blank(s) && |s| > LongAnswerLimit {
      assert Applies(c.rules[1], All(req), k);
      assert !Holds(o, c.rules[1], Text(s));
    }
    if Blank(s) {
      assert !Holds(o, c.rules[0], Text(s));
    }
  }

  /** A second create by the same caller is refused with
      `application_already_exists` and changes nothing. */
  lemma CreateTwiceRefused(o: Oracle, caller: Principal, req: Request, uuid1: Uuid, uuid2: Uuid, db: Db)
    requires CreateApplication(o, caller, req, uuid1, db).reply.outcome == Success
    ensures var db1 := CreateApplication(o, caller, req, uuid1, db).db;
            var r := CreateApplication(o, caller, req, uuid2, db1);
            r.reply.outcome == AlreadyExists && HttpStatus(r.reply.outcome) == 400 && r.db == db1
  {
  }

  /** Round trip: after a successful create, the caller's own view shows
      every submitted text field verbatim and the public status `pending`. */
  lemma CreateThenViewOwn(o: Oracle, caller: Principal, req: Request, uuid: Uuid, db: Db)
    requires CreateApplication(o, caller, req, uuid, db).reply.outcome == Success
    ensures var v := GetSelfApplication(caller, CreateApplication(o, caller, req, uuid, db).db);
            v.outcome == Success && v.body.Own? && v.body.view.status == Pending
    ensures var v := GetSelfApplication(caller, CreateApplication(o, caller, req, uuid, db).db);
            v.body.Own? && forall f: Field :: Name(f) in req.input ==> v.body.view.answers.Get(f) == req.input[Name(f)]
    ensures var v := GetSelfApplication(caller, CreateApplication(o, caller, req, uuid, db).db);
            v.body.Own? && forall f: Field :: Name(f) !in req.input ==> v.body.view.answers.Get(f) == None
  {
    var db1 := CreateApplication(o, caller, req, uuid, db).db;
    forall f: Field ensures Name(f) in req.input ==> db1.apps[caller.id].answers.Get(f) == req.input[Name(f)] {
      assert Name(f) != "resume";
    }
    forall f: Field ensures Name(f) !in req.input ==> db1.apps[caller.id].answers.Get(f) == None {
      assert Name(f) != "resume";
    }
  }

  /** The update loop's outcome is a fixed point: applying it again changes nothing. */
  lemma OverwriteIdempotent(owner: UserId, req: Request, p: Progress)
    ensures Overwrite(owner, req, Overwrite(owner, req, p)) == Overwrite(owner, req, p)
  {
    var p1 := Overwrite(owner, req, p);
    var p2 := Overwrite(owner, req, p1);
    AnswersExtensional(p2.app.answers, p1.app.answers);
  }

  /** Applying the same update twice has the effect of applying it once. */
  lemma UpdateIdempotent(o: Oracle, caller: Principal, req: Request, db: Db)
    ensures var r1 := UpdateApplication(o, caller, req, db);
            UpdateApplication(o, caller, req, r1.db) == r1
  {
    var r1 := UpdateApplication(o, caller, req, db);
    if r1.reply.outcome == Success {
      var p1 := Overwrite(caller.id, req, Progress(db.apps[caller.id], db.resumes));
      OverwriteIdempotent(caller.id, req, Progress(db.apps[caller.id], db.resumes));
      assert r1.db.apps[caller.id] == p1.app;
      assert Progress(r1.db.apps[caller.id], r1.db.resumes) == p1;
    }
  }

  /** Update never touches the status fields, the email status, the owner,
      the uuid or the primary key. */
  lemma UpdateKeepsStatus(o: Oracle, caller: Principal, req: Request, db: Db)
    requires caller.id in db.apps
    ensures var a := UpdateApplication(o, caller, req, db).db.apps[caller.id];
            var b := db.apps[caller.id];
            a.statusInternal == b.statusInternal && a.statusPublic == b.statusPublic
            && a.lastEmailStatus == b.lastEmailStatus && a.userId == b.userId
            && a.uuid == b.uuid && a.id == b.id
  {
  }

  /** Updating without an application answers `application_does_not_exist`
      (400) once the supplied fields validate, and changes nothing. */
  lemma UpdateWithoutApplication(o: Oracle, caller: Principal, req: Request, db: Db)
    requires caller.id !in db.apps
    ensures var r := UpdateApplication(o, caller, req, db);
            r.db == db && (r.reply.outcome == DoesNotExist <==> Passes(o, All(req), UpdateRules))
            && (r.reply.outcome == DoesNotExist ==> HttpStatus(r.reply.outcome) == 400)
  {
  }

  /** No update rule is `required`. */
  lemma UpdateRulesOptional()
    ensures NoRequired(UpdateRules)
  {
  }

  /** updateApplication validates only the keys that were sent: every key
      its `validation` reply names (the keys of `Failures` over UpdateRules)
      was sent, and not as blank text. */
  lemma UpdateValidatesOnlySentKeys(o: Oracle, req: Request)
    ensures forall k :: k in Failures(o, All(req), UpdateRules) ==>
      k in All(req) && !(All(req)[k].Text? && Blank(All(req)[k].text))
  {
    UpdateRulesOptional();
    OnlySentKeysFail(o, All(req), UpdateRules);
  }

  /** A field not sent to update is not validated: an update with no text
      inputs and no file always passes validation. */
  lemma EmptyUpdateValidates(o: Oracle)
    ensures Passes(o, All(Request(map[], None)), UpdateRules)
  {
    var input := All(Request(map[], None));
    assert input == map[];
    forall i | 0 <= i < |UpdateRules| ensures Satisfies(o, input, UpdateRules[i]) {
      assert forall j :: 0 <= j < |UpdateRules[i].rules| ==> !UpdateRules[i].rules[j].Required?;
    }
  }

  /** Callers without the admin role get `insufficient_permissions` from the
      three admin endpoints, with no application data and no change. */
  lemma AdminGate(o: Oracle, caller: Principal, req: Request, id: AppId, db: Db)
    requires !IsAdmin(caller)
    ensures GetSingleApplication(caller, id, db).outcome == InsufficientPermissions
    ensures GetSingleApplication(caller, id, db).body == NoBody
    ensures GetApplications(caller, db) == Reply(InsufficientPermissions, NoBody)
    ensures SetApplicationStatus(o, caller, req, id, db) == Step(Reply(InsufficientPermissions, NoBody), db)
  {
  }

  /** Once `status` validates, the switch always picks a status whose name
      is the text sent: its `default` branch cannot be reached. */
  lemma StatusSwitchTotal(o: Oracle, req: Request)
    requires Passes(o, All(req), StatusRules)
    ensures var d := Lookup(All(req), "status");
            d.Text? && StatusSwitch(o, d).Some? && StatusName(StatusSwitch(o, d).value) == d.text
            && StatusSwitch(o, d).value != Pending
  {
    var d := Lookup(All(req), "status");
    var c := StatusRules[0];
    assert Satisfies(o, All(req), c);
    assert c.rules[0] == Required && c.rules[1] == In(StatusChoices);
    assert Applies(c.rules[0], All(req), "status");
    assert Holds(o, c.rules[0], d);
    assert Applies(c.rules[1], All(req), "status");
    assert Holds(o, c.rules[1], d);
    EnumerationsArePlain();
    if d.Null? {
      InPlainList(o, "", StatusChoices);
    } else {
      InPlainList(o, d.text, StatusChoices);
      LooseEqualsPlain(o, d.text, "accepted");
      LooseEqualsPlain(o, d.text, "waitlisted");
      LooseEqualsPlain(o, d.text, "rejected");
    }
  }

  /** Loose equality with a plain (non-numeric) string is identity. */
  lemma LooseEqualsPlain(o: Oracle, s: string, t: string)
    requires |t| > 0 && !NumericChar(t[0])
    ensures LooseEquals(o, s, t) <==> s == t
  {
  }

  /** An admin's status change with a valid status on an existing
      application sets only status_internal of that row, to the status named. */
  lemma SetStatusApplies(o: Oracle, caller: Principal, req: Request, id: AppId, db: Db, s: string)
    requires IsAdmin(caller) && HasId(db, id)
    requires "status" in req.input && req.input["status"] == Some(s) && s in StatusChoices
    ensures var r := SetApplicationStatus(o, caller, req, id, db);
            && r.reply.outcome == Success
            && r.db.apps.Keys == db.apps.Keys
            && (forall u :: u in db.apps && db.apps[u].id == id ==>
                  StatusName(r.db.apps[u].statusInternal) == s
                  && r.db.apps[u] == db.apps[u].(statusInternal := r.db.apps[u].statusInternal))
            && (forall u :: u in db.apps && db.apps[u].id != id ==> r.db.apps[u] == db.apps[u])
  {
    var input := All(req);
    assert Lookup(input, "status") == Text(s);
    EnumerationsArePlain();
    InPlainList(o, s, StatusChoices);
    assert !Blank(s) by { assert !Trimmed(s[0]); }
    assert Satisfies(o, input, StatusRules[0]);
    StatusSwitchTotal(o, req);
  }

  /** Any other status value is refused with `validation` (400), whatever
      the caller's target, and nothing changes. */
  lemma SetStatusRejectsOthers(o: Oracle, caller: Principal, req: Request, id: AppId, db: Db, s: string)
    requires IsAdmin(caller)
    requires "status" in req.input && req.input["status"] == Some(s) && s !in StatusChoices
    ensures var r := SetApplicationStatus(o, caller, req, id, db);
            r.reply.outcome.Invalid? && HttpStatus(r.reply.outcome) == 400 && r.db == db
  {
    var input := All(req);
    assert Lookup(input, "status") == Text(s);
    EnumerationsArePlain();
    InPlainList(o, s, StatusChoices);
    var c := StatusRules[0];
    if Blank(s) {
      assert !Holds(o, c.rules[0], Text(s));
    } else {
      assert Applies(c.rules[1], input, "status");
      assert !Holds(o, c.rules[1], Text(s));
    }
    assert !Satisfies(o, input, c);
  }

  /** A status change never alters what any applicant sees of their own
      application: the public view, and its status, are unaffected. */
  lemma SetStatusHiddenFromApplicant(o: Oracle, admin: Principal, req: Request, id: AppId, db: Db, viewer: Principal)
    ensures GetSelfApplication(viewer, SetApplicationStatus(o, admin, req, id, db).db) == GetSelfApplication(viewer, db)
  {
  }

  /** The public view does not depend on status_internal, last_email_status or uuid. */
  lemma ProjectionHidesInternal(a: Application, s: Status, e: string, u: Uuid)
    ensures Project(a.(statusInternal := s, lastEmailStatus := e, uuid := u)) == Project(a)
  {
  }

  /** Every transition keeps the database's key and ownership guarantees. */
  lemma CreatePreservesValid(o: Oracle, caller: Principal, req: Request, uuid: Uuid, db: Db)
    requires Valid(db)
    ensures Valid(CreateApplication(o, caller, req, uuid, db).db)
  {
  }

  lemma UpdatePreservesValid(o: Oracle, caller: Principal, req: Request, db: Db)
    requires Valid(db)
    ensures Valid(UpdateApplication(o, caller, req, db).db)
  {
  }

  lemma SetStatusPreservesValid(o: Oracle, caller: Principal, req: Request, id: AppId, db: Db)
    requires Valid(db)
    ensures Valid(SetApplicationStatus(o, caller, req, id, db).db)
  {
  }

  /** No endpoint here changes status_public away from `pending`. */
  predicate PublicPending(db: Db) {
    forall u :: u in db.apps ==> db.apps[u].statusPublic == Pending
  }

  lemma CreateKeepsPublicPending(o: Oracle, caller: Principal, req: Request, uuid: Uuid, db: Db)
    requires PublicPending(db)
    ensures PublicPending(CreateApplication(o, caller, req, uuid, db).db)
  {
  }

  lemma UpdateKeepsPublicPending(o: Oracle, caller: Principal, req: Request, db: Db)
    requires PublicPending(db)
    ensures PublicPending(UpdateApplication(o, caller, req, db).db)
  {
  }

  lemma SetStatusKeepsPublicPending(o: Oracle, caller: Principal, req: Request, id: AppId, db: Db)
    requires PublicPending(db)
    ensures PublicPending(SetApplicationStatus(o, caller, req, id, db).db)
  {
  }

  /** A confirmation email goes out exactly when create succeeds, to the caller. */
  lemma ConfirmationOnlyOnSuccess(o: Oracle, caller: Principal, req: Request, uuid: Uuid, db: Db)
    ensures var r := CreateApplication(o, caller, req, uuid, db);
            (r.reply.outcome == Success <==> |r.db.confirmations| == |db.confirmations| + 1)
            && (r.reply.outcome == Success ==> r.db.confirmations[|db.confirmations|] == caller.id)
  {
  }
}

=== FILE: records.dfy ===
/** The Application row, its public projection and the store of applications
    keyed by owning user (a user has at most one application). */
module Records {
  import opened Common

  /** The ten submitted fields of an application. */
  datatype Field =
    | ClassYear | GradYear | Major | Referral | HackathonCount | ShirtSize
    | DietaryRestrictions | Website | LongAnswer1 | LongAnswer2

  /** The column and request-key name of a field. */
  function Name(f: Field): string {
    match f
    case ClassYear => "class_year"
    case GradYear => "grad_year"
    case Major => "major"
    case Referral => "referral"
    case HackathonCount => "hackathon_count"
    case ShirtSize => "shirt_size"
    case DietaryRestrictions => "dietary_restrictions"
    case Website => "website"
    case LongAnswer1 => "longanswer_1"
    case LongAnswer2 => "longanswer_2"
  }

  /** The field a request key names, if any; the inverse of Name. */
  function FieldNamed(key: string): (r: Option<Field>)
    ensures r.Some? ==> Name(r.value) == key
    ensures forall f: Field :: Name(f) == key ==> r == Some(f)
  {
    if key == "class_year" then Some(ClassYear)
    else if key == "grad_year" then Some(GradYear)
    else if key == "major" then Some(Major)
    else if key == "referral" then Some(Referral)
    else if key == "hackathon_count" then Some(HackathonCount)
    else if key == "shirt_size" then Some(ShirtSize)
    else if key == "dietary_restrictions" then Some(DietaryRestrictions)
    else if key == "website" then Some(Website)
    else if key == "longanswer_1" then Some(LongAnswer1)
    else if key == "longanswer_2" then Some(LongAnswer2)
    else None
  }

  /** The submitted answers, each stored as given (or null). */
  datatype Answers = Answers(
    classYear: Option<string>,
    gradYear: Option<string>,
    major: Option<string>,
    referral: Option<string>,
    hackathonCount: Option<string>,
    shirtSize: Option<string>,
    dietaryRestrictions: Option<string>,
    website: Option<string>,
    longAnswer1: Option<string>,
    longAnswer2: Option<string>)
  {
    /** Reads the attribute `$application->$key` for the field's key. */
    function Get(f: Field): Option<string> {
      match f
      case ClassYear => classYear
      case GradYear => gradYear
      case Major => major
      case Referral => referral
      case HackathonCount => hackathonCount
      case ShirtSize => shirtSize
      case DietaryRestrictions => dietaryRestrictions
      case Website => website
      case LongAnswer1 => longAnswer1
      case LongAnswer2 => longAnswer2
    }

    /** Writes the attribute `$application->$key = $value`: that field takes
        the value and every other field keeps its own. */
    function With(f: Field, v: Option<string>): (r: Answers)
      ensures forall g: Field :: r.Get(g) == if g == f then v else Get(g)
    {
      match f
      case ClassYear => this.(classYear := v)
      case GradYear => this.(gradYear := v)
      case Major => this.(major := v)
      case Referral => this.(referral := v)
      case HackathonCount => this.(hackathonCount := v)
      case ShirtSize => this.(shirtSize := v)
      case DietaryRestrictions => this.(dietaryRestrictions := v)
      case Website => this.(website := v)
      case LongAnswer1 => this.(longAnswer1 := v)
      case LongAnswer2 => this.(longAnswer2 := v)
    }
  }

  /** Two answer records that agree on every field are equal. */
  lemma AnswersExtensional(a: Answers, b: Answers)
    requires forall f: Field :: a.Get(f) == b.Get(f)
    ensures a == b
  {
    assert a.Get(ClassYear) == b.Get(ClassYear);
    assert a.Get(GradYear) == b.Get(GradYear);
    assert a.Get(Major) == b.Get(Major);
    assert a.Get(Referral) == b.Get(Referral);
    assert a.Get(HackathonCount) == b.Get(HackathonCount);
    assert a.Get(ShirtSize) == b.Get(ShirtSize);
    assert a.Get(DietaryRestrictions) == b.Get(DietaryRestrictions);
    assert a.Get(Website) == b.Get(Website);
    assert a.Get(LongAnswer1) == b.Get(LongAnswer1);
    assert a.Get(LongAnswer2) == b.Get(LongAnswer2);
  }

  /** Values of status_internal; status_public takes the same values. */
  datatype Status = Pending | Accepted | Waitlisted | Rejected

  function StatusName(s: Status): string {
    match s
    case Pending => "pending"
    case Accepted => "accepted"
    case Waitlisted => "waitlisted"
    case Rejected => "rejected"
  }

  /** One row of the applications table (timestamps left out). */
  datatype Application = Application(
    id: AppId,
    uuid: Uuid,
    userId: UserId,
    answers: Answers,
    statusInternal: Status,
    statusPublic: Status,
    lastEmailStatus: string)

  /** What an applicant sees of their own application: the selected columns,
      with status_public exposed under the name `status`. */
  datatype PublicView = PublicView(id: AppId, userId: UserId, answers: Answers, status: Status)

  function Project(a: Application): (v: PublicView)
    ensures v.status == a.statusPublic
    ensures v.answers == a.answers && v.id == a.id && v.userId == a.userId
  {
    PublicView(a.id, a.userId, a.answers, a.statusPublic)
  }

  /** The persisted state the controller acts on: applications by owner, the
      resume blob stored for each owner's application, the next auto-increment
      id, and the owners sent a confirmation email, in order. */
  datatype Db = Db(
    apps: map<UserId, Application>,
    resumes: map<UserId, Bytes>,
    nextId: AppId,
    confirmations: seq<UserId>)

  /** The database's own guarantees: the map key is the row's user_id, and
      primary keys are distinct and below the auto-increment counter. */
  predicate Valid(db: Db) {
    && (forall u :: u in db.apps ==> db.apps[u].userId == u && db.apps[u].id < db.nextId)
    && (forall u, v :: u in db.apps && v in db.apps && u != v ==> db.apps[u].id != db.apps[v].id)
  }

  /** Whether some application has primary key `id` (findOrFail succeeds). */
  predicate HasId(db: Db, id: AppId) {
    exists u :: u in db.apps && db.apps[u].id == id
  }
}

=== FILE: validation.dfy ===
/** The part of Laravel's validator (release 5.3 and later) the application
    controller relies on: the rules `required`, `in:…`, `integer`, `url`,
    `max:n` and `file`, applied attribute by attribute to the request's data. */
module Validation {
  import opened Common

  /** One value of `$request->all()`: JSON null, a text value, or an uploaded file. */
  datatype Datum = Null | Text(text: string) | Upload(bytes: Bytes)

  /** The request data as the validator sees it, keyed by attribute name. */
  type Input = map<string, Datum>

  /** Checks the model leaves uninterpreted: PHP's FILTER_VALIDATE_INT (the
      `integer` rule), Laravel's URL pattern (the `url` rule, a string check
      plus a regular expression), and whether two
      strings that look numeric denote the same number under PHP's `==`. */
  datatype Oracle = Oracle(
    isInteger: string -> bool,
    isUrl: string -> bool,
    sameNumber: (string, string) -> bool)

  datatype Rule = Required | In(allowed: seq<string>) | Integer | Url | Max(limit: nat) | File

  /** The rules for one attribute, as in `'major' => 'required'`. */
  datatype Constraint = Constraint(key: string, rules: seq<Rule>)

  /** The characters PHP's trim() removes by default. */
  predicate Trimmed(c: char) {
    c == ' ' || c == '\t' || c == '\n' || c == '\r' || c == '\0' || c as int == 0x0B
  }

  /** `trim($s) === ''`. */
  predicate Blank(s: string) {
    forall i :: 0 <= i < |s| ==> Trimmed(s[i])
  }

  /** Characters that can occur in a PHP numeric string. */
  predicate NumericChar(c: char) {
    ('0' <= c <= '9') || c == '+' || c == '-' || c == '.' || c == 'e' || c == 'E'
    || c == ' ' || c == '\t' || c == '\n' || c == '\r' || c as int == 0x0B || c as int == 0x0C
  }

  /** A string that could be numeric: it has a digit and nothing but numeric
      characters. Any other string is compared byte for byte. */
  predicate NumericLooking(s: string) {
    (exists i :: 0 <= i < |s| && '0' <= s[i] <= '9') && forall i :: 0 <= i < |s| ==> NumericChar(s[i])
  }

  /** PHP's loose `==` on two strings: numeric strings compare by value,
      all others by identity. */
  predicate LooseEquals(o: Oracle, a: string, b: string) {
    a == b || (NumericLooking(a) && NumericLooking(b) && o.sameNumber(a, b))
  }

  /** A canonical decimal numeral: digits only, and no leading zero unless
      it is "0" itself. */
  predicate Decimal(s: string) {
    |s| > 0 && (forall i :: 0 <= i < |s| ==> '0' <= s[i] <= '9') && (s[0] == '0' ==> |s| == 1)
  }

  /** What PHP's numeric comparison guarantees of canonical decimals: two of
      them denote the same number only when they are the same string. */
  ghost predicate DecimalsExact(o: Oracle) {
    forall a, b :: Decimal(a) && Decimal(b) && o.sameNumber(a, b) ==> a == b
  }

  /** `in_array($s, $allowed)` without the strict flag. */
  predicate InList(o: Oracle, s: string, allowed: seq<string>) {
    exists i :: 0 <= i < |allowed| && LooseEquals(o, s, allowed[i])
  }

  /** A list none of whose entries can be numeric: each starts with a
      character no numeric string contains. */
  predicate PlainList(allowed: seq<string>) {
    forall i :: 0 <= i < |allowed| ==> |allowed[i]| > 0 && !NumericChar(allowed[i][0])
  }

  /** Membership in a plain list is exact: `in_array` cannot match loosely. */
  lemma InPlainList(o: Oracle, s: string, allowed: seq<string>)
    requires PlainList(allowed)
    ensures InList(o, s, allowed) <==> s in allowed
  {
  }

  /** What `$request->input($key)` yields: a missing key reads as null. */
  function Lookup(input: Input, key: string): Datum {
    if key in input then input[key] else Null
  }

  /** Whether `rule` is evaluated for `key` at all: `required` always is; any
      other rule only when the key is present and is not a blank string. A
      present null is evaluated, as from Laravel 5.3 on. */
  predicate Applies(rule: Rule, input: Input, key: string) {
    rule.Required? || (key in input && !(input[key].Text? && Blank(input[key].text)))
  }

  /** Whether one evaluated rule accepts the value. */
  predicate Holds(o: Oracle, rule: Rule, d: Datum) {
    match rule
    case Required => (
      match d
      case Null => false
      case Text(s) => !Blank(s)
      case Upload(_) => true)
    case In(allowed) => (
      match d
      case Null => InList(o, "", allowed)
      case Text(s) => InList(o, s, allowed)
      case Upload(_) => false)
    case Integer => d.Text? && o.isInteger(d.text)
    case Url => d.Text? && o.isUrl(d.text)
    case Max(n) => (
      match d
      case Null => true
      case Text(s) => |s| <= n
      case Upload(b) => |b| <= n * 1024)
    case File => d.Upload?
  }

  /** The attribute passes when every rule that applies to it holds. */
  predicate Satisfies(o: Oracle, input: Input, c: Constraint) {
    forall j :: 0 <= j < |c.rules| && Applies(c.rules[j], input, c.key) ==> Holds(o, c.rules[j], Lookup(input, c.key))
  }

  /** `$validator->fails()` is false. */
  predicate Passes(o: Oracle, input: Input, table: seq<Constraint>) {
    forall i :: 0 <= i < |table| ==> Satisfies(o, input, table[i])
  }

  /** The keys of `$validator->errors()`: every attribute with a failing rule. */
  function Failures(o: Oracle, input: Input, table: seq<Constraint>): (errs: set<string>)
    ensures forall i :: 0 <= i < |table| && !Satisfies(o, input, table[i]) ==> table[i].key in errs
    ensures forall k :: k in errs ==> exists i :: 0 <= i < |table| && table[i].key == k && !Satisfies(o, input, table[i])
    ensures errs == {} <==> Passes(o, input, table)
  {
    if table == [] then {}
    else
      var rest := Failures(o, input, table[1..]);
      assert forall i :: 1 <= i < |table| ==> table[i] == table[1..][i - 1];
      if Satisfies(o, input, table[0]) then rest else {table[0].key} + rest
  }

  /** A table in which no attribute is `required`. */
  predicate NoRequired(table: seq<Constraint>) {
    forall i, j :: 0 <= i < |table| && 0 <= j < |table[i].rules| ==> !table[i].rules[j].Required?
  }

  /** Without `required`, only attributes that were sent, and not as blank
      text, can fail: an absent or blank attribute is never validated. */
  lemma OnlySentKeysFail(o: Oracle, input: Input, table: seq<Constraint>)
    requires NoRequired(table)
    ensures forall k :: k in Failures(o, input, table) ==>
      k in input && !(input[k].Text? && Blank(input[k].text))
  {
  }
}
